=== FILE: README.md ===
# go-chord ring logic in Dafny

This project models the core of a Chord overlay peer (lukaspj/go-chord). The
core covers four things:

- the identifier arithmetic on `NodeID`;
- the fixed-size finger table and successor list with change detection;
- the maintenance steps `Stabilize`, `FixFingers` and `CheckPredecessor`;
- the inbound handlers of a peer, in both the gRPC variant (`chord/peer.go`)
  and the net/rpc variant (`chord/api.go`).

The source mixes historical variants that do not type-check together, so each
file is modelled against its own types:

| module | file | slots |
|---|---|---|
| `NodeIds` | chord/node_id.go | — |
| `Contacts` | `ContactInfo` of chord/peer.go, wire form, call trace, remote oracle | — |
| `FingerTables` | chord/finger_table.go | pointer slots, `Option<ContactInfo>` |
| `SuccessorLists` | chord/successor_list.go | pointer slots |
| `LegacyFingerTables` | finger_table.go (repository root) | value slots of a two-field contact |
| `Network` | chord/network.go | value slots: an unused slot is the zero `ContactInfo` |
| `Api` | chord/api.go, over the `Network` state | value slots |
| `Peers` | chord/peer.go | pointer slots |

Everything is a pure function over immutable datatypes:

- Each outbound call is read from a `Remote` oracle. The oracle is a record of
  total functions, one per remote method. A reply carries a value and an
  optional error, as Go's `(value, err)` pair does.
- Each step returns the calls it made as a trace of `Call` values.
- `time.Now()` becomes a `now: int` parameter.
- A poke of the maintenance tasks becomes a counter (`Peers`) or a flag (`Api`).

## The `Between` predicate

`NodeID.Between` is modelled exactly as written (chord/node_id.go:109-114).
Its doc comment promises the ring interval `(a, b]`, but Go's `&&` binds
tighter than `||`, so line 113 reads `(b < a && node >= a) || node < b`. In
values, the predicate therefore holds when any of these holds:

- `a == b`;
- `node <= b`;
- `b < a` and `node >= a`.

`NodeIds.BetweenVersusArc` states the exact gap. The code accepts the
documented arc, plus `a` itself, plus every node below `a` when `a < b`.
`NodeIds.BetweenAcceptsLeftEnd` gives a concrete witness. The gap reaches every
caller:

- `Network.StabilizeAdoptsNodeBehindLocal`: Stabilize adopts a reported
  predecessor that lies below the local node.
- `Peers.FindSuccessorShortCircuits`: any id at or below successor 0 is
  answered locally.
- `Peers.Notify` and `Api.Notify`: the test `sender.Between(pred, sender)` is
  always true, so every Notify replaces the predecessor.

## Behaviour of the code worth noting

- A lookup is not retried. When the `ClosestPrecedingNode` call fails, the
  lookup ends with that error and no answer (chord/peer.go:75-82).
- The successor list is rebuilt without a fallback. Each slot stores the
  `Successor` reply even when that call failed (chord/network.go:143-147).
- A setter keeps the old contact when the ids are equal. A successor that
  answers a ping from a new address therefore keeps its old address and
  payload (chord/successor_list.go:15-20, chord/network.go:140).
- The finger target is `local + 2^(next+1)`, because the code shifts 2, not
  1, by `next` (chord/network.go:187-188). The cursor is advanced before it is
  used, so the first call fills slot 1 (chord/network.go:177-180).
- `Stabilize` notifies the successor it read before any adoption
  (chord/network.go:155, 172).
- `ClosestPrecedingNode` scans the fingers downwards and stops at the first
  one that qualifies. In chord/peer.go:92-100 a nil slot the scan reaches would
  panic, and no qualifying finger gives an empty answer. In
  chord/api.go:63-71 no qualifying finger gives the peer itself.

## Model

| member | source | states |
|---|---|---|
| `NodeIds.ToBytes` | chord/node_id.go:84-87 | the minimal big-endian encoding reads back as the same value and never starts with a zero byte (`big.Int.Bytes`) |
| `NodeIds.Value` | chord/node_id.go:68-70 | no contract; `BigInt` as the big-endian value of the bytes, characterised by `NodeIds.ToBytes` and `NodeIds.EqualsIgnoresLeadingZeros` |
| `NodeIds.NewEmptyNodeID` | chord/node_id.go:58-60 | no contract; the id with no bytes, characterised by `NodeIds.EmptyEqualsAllZero` and `NodeIds.IsZeroIffValueZero` |
| `NodeIds.Equals` | chord/node_id.go:76-78 | no contract; value equality, characterised by `NodeIds.EqualsIsEquivalence` and `NodeIds.LessTrichotomy` |
| `NodeIds.Less` | chord/node_id.go:80-82 | no contract; value order, characterised by `NodeIds.LessTrichotomy` and `NodeIds.LessIsTransitive` |
| `NodeIds.IsZero` | chord/node_id.go:99-105 | no contract; characterised by `NodeIds.IsZeroIffValueZero` |
| `NodeIds.Between` | chord/node_id.go:109-114 | no contract; the four disjuncts as written, characterised by `NodeIds.BetweenValues` and `NodeIds.BetweenVersusArc` |
| `NodeIds.EqualsIgnoresLeadingZeros` | chord/node_id.go:68-78 | ids that differ only by leading zero bytes are `Equals` |
| `NodeIds.EmptyEqualsAllZero` | chord/node_id.go:58-60 | the empty id equals every all-zero id |
| `NodeIds.EqualsIsEquivalence` | chord/node_id.go:76-78 | `Equals` is reflexive, symmetric and transitive |
| `NodeIds.LessTrichotomy` | chord/node_id.go:80-82 | for any two ids exactly one of `a.Less(b)`, `a.Equals(b)`, `b.Less(a)` holds |
| `NodeIds.LessIsTransitive` | chord/node_id.go:80-82 | `Less` is irreflexive and transitive |
| `NodeIds.IsZeroIffValueZero` | chord/node_id.go:99-105 | `IsZero` holds iff the value is 0, iff the id equals `NewEmptyNodeID()` |
| `NodeIds.Xor` | chord/node_id.go:84-87 | bit i of the result is set iff exactly one operand has bit i set |
| `NodeIds.XorNatBits` | chord/node_id.go:84-87 | the bitwise characterisation of xor on values, by induction |
| `NodeIds.XorCommutes` | chord/node_id.go:84-87 | `a.Xor(b)` and `b.Xor(a)` are the same id |
| `NodeIds.XorSelfIsZero` | chord/node_id.go:84-87 | `x.Xor(x).IsZero()` |
| `NodeIds.PrefixLen` | chord/node_id.go:89-97 | the result is the lowest set bit of a non-zero value, every lower bit is clear, and the value is 2^r times an odd number; the result is 0 for value 0 |
| `NodeIds.LowBitsClear` | chord/node_id.go:89-97 | when the k lowest bits are clear, the value is 2^k times its k-bit right shift |
| `NodeIds.HighestBetween` | chord/api.go:63-71 | the finger scan returns the highest index whose id lies `Between(a, b)`, all higher ones do not, and it returns nothing iff no index qualifies |
| `NodeIds.BetweenValues` | chord/node_id.go:109-114 | `Between` holds iff a == b, or node <= b, or (b < a and node >= a), in values |
| `NodeIds.BetweenFullCircle` | chord/node_id.go:110 | `node.Between(a, a)` holds for every node |
| `NodeIds.BetweenRightClosed` | chord/node_id.go:111 | `x.Between(a, x)` holds for every a |
| `NodeIds.BetweenWrapped` | chord/node_id.go:113 | when b < a, `Between` holds iff node >= a or node <= b |
| `NodeIds.BetweenUnwrapped` | chord/node_id.go:107-113 | when a < b, `Between` holds iff node <= b, so a itself and nodes below a are accepted |
| `NodeIds.BetweenVersusArc` | chord/node_id.go:107-114 | the code accepts exactly the commented `(a, b]` arc plus a itself plus, when a < b, every node below a |
| `NodeIds.BetweenAcceptsLeftEnd` | chord/node_id.go:107-112 | 1 lies in the code's `Between(1, 5)` but not in the arc (1, 5] |
| `Contacts.FromApi` | chord/peer.go:32-41 | a wire contact converts to no contact exactly when it carries no id |
| `Contacts.ToApi` | chord/peer.go:24-30 | no contract; characterised together with `FromApi` by `Contacts.WireRoundTrip` |
| `Contacts.WireRoundTrip` | chord/peer.go:24-41 | `NewContactInfoFromAPI(ci.ToAPI())` gives back ci; the empty wire contact gives nil |
| `FingerTables.SetFinger` | chord/finger_table.go:14-21 | writes iff the slot is nil or its id value differs; a write puts info in the slot; no write leaves the table unchanged; other slots and `next` are untouched |
| `FingerTables.GetFinger` | chord/finger_table.go:10-12 | no contract; a plain read of slot `index`, possibly nil, characterised by `FingerTables.SetFingerTwice` and `FingerTables.SetFingerIgnoresAddress` |
| `FingerTables.SetFingerTwice` | chord/finger_table.go:10-21 | afterwards the slot holds an equal id; a second identical call reports no change and writes nothing |
| `FingerTables.SetFingerIgnoresAddress` | chord/finger_table.go:15-20 | a contact with an equal id but another address or payload is not written |
| `SuccessorLists.SetSuccessor` | chord/successor_list.go:11-21 | writes iff slot i is nil or its id value differs; a write puts info in slot i; no write leaves the list unchanged; other slots are untouched |
| `SuccessorLists.GetSuccessor` | chord/successor_list.go:7-9 | no contract; a plain read of slot `i`, possibly nil, characterised by `SuccessorLists.SetSuccessorTwice` |
| `SuccessorLists.SetSuccessorTwice` | chord/successor_list.go:7-21 | afterwards slot i holds an equal id; a second identical call reports no change |
| `LegacyFingerTables.SetFinger` | finger_table.go:34-41 | writes iff the id value differs from the stored slot's; a write replaces the slot; no write changes nothing, address included; other slots and `next` are untouched |
| `LegacyFingerTables.FreshSlotIgnoresZeroId` | finger_table.go:34-40 | on a zero-valued table, setting an id of value 0, with or without bytes, is a no-op that reports no change |
| `LegacyFingerTables.GetFinger` | finger_table.go:30-32 | no contract; a plain read of slot `index` by value, characterised by `LegacyFingerTables.SetFingerTwice` |
| `LegacyFingerTables.SetFingerTwice` | finger_table.go:30-41 | `GetFinger` afterwards returns an equal id; a second identical call reports no change and writes nothing |
| `Network.NewChordNetwork` | chord/network.go:17-25 | a fresh network has zero-id fingers and successors, cursor 0, no predecessor and the given identity |
| `Network.SetSlot` | finger_table.go:34-41 | the value-slot setter that chord/network.go calls: writes iff the id value differs |
| `Network.FirstLive` | chord/network.go:127-137 | the first successor slot with a non-zero id that answers a ping; every earlier slot is zero or unresponsive |
| `Network.RebuildFrom` | chord/network.go:142-147 | each rebuilt slot holds what `SetSuccessor` leaves when given the contact the previous slot names as its successor: that contact, or the old one, address included, when the ids are equal; earlier slots are kept; dirty iff some slot's id value changed; one Successor call per slot |
| `Network.RebuildList` | chord/network.go:139-151 | slot 0 is set to the pinged contact and each later slot to the contact its predecessor slot names, each write keeping the old contact when the ids are equal; `lastDirtyTime` moves iff some slot's id changed; nothing else changes |
| `Network.Refresh` | chord/network.go:127-153 | with no live slot the state is unchanged; otherwise the list is rebuilt from the first live slot's ping reply; only the successors and `lastDirtyTime` change |
| `Network.Stabilize` | chord/network.go:123-174 | returns the Predecessor call's error; returns early without Notify when x equals self; when x lies `Between(self, successor)` the state is the refreshed one, with x in slot 0 and `lastDirtyTime` at now exactly when x's id differs from the successor's; otherwise the refreshed state; notifies the successor read before adoption; fingers, cursor and predecessor are untouched |
| `Network.StabilizeAdoptsNodeBehindLocal` | chord/network.go:167-171 | when self < successor, a reported predecessor below self is adopted as successor 0 |
| `Network.StabilizeWithoutLiveSuccessor` | chord/network.go:127-156 | with no live successor, slots 1..4 stay as they were and the Predecessor query goes to the old successor 0 |
| `Network.AdvanceCursor` | chord/network.go:177-180 | the cursor stays in [0, 10) and advances by one modulo 10 |
| `Network.FingerTarget` | chord/network.go:184-191 | the target id fits in 20 bytes |
| `Network.FingerTargetValue` | chord/network.go:184-191 | the target's value is (local + 2^(next+1)) mod 2^160, whatever the local id's length |
| `Network.FixFingers` | chord/network.go:176-200 | only finger slot `next` can change; it ends up holding the lookup's contact, even when the lookup failed, or the old contact when the ids are equal; `lastDirtyTime` moves iff that id changed; the lookup's error is returned; exactly one FindSuccessor call is made, to self |
| `Network.FixFingersTarget` | chord/network.go:184-194 | the lookup FixFingers issues targets local + 2^(next+1) mod 2^160 for the advanced cursor |
| `Network.FixFingersTimes` | chord/network.go:176-180 | after k FixFingers calls the cursor has advanced k slots modulo 10 |
| `Network.CheckPredecessor` | chord/network.go:202-211 | with no predecessor nothing happens; a successful ping changes nothing; a failed ping clears the predecessor and sets `lastDirtyTime`; a kept predecessor answers pings |
| `Network.CheckPredecessorIdempotent` | chord/network.go:202-211 | a second check with the same answers changes nothing |
| `Api.FindSuccessor` | chord/api.go:39-48 | on envelope failure, state unchanged and Info unset; otherwise the peer's lookup result goes into Info and its error is returned |
| `Api.ClosestPrecedingNode` | chord/api.go:60-76 | returns the highest finger lying `Between(self, id)`, else self, so always a finger or self; state unchanged |
| `Api.ClosestPrecedingNodeValues` | chord/api.go:63-69 | a returned finger other than self has an id at most the target's, or the target is below self and the finger at or above self, or the target equals self (the full circle, where every finger qualifies) |
| `Api.Predecessor` | chord/api.go:87-94 | returns the stored, possibly absent, predecessor and changes nothing; nothing on envelope failure |
| `Api.Successor` | chord/api.go:105-112 | returns successor slot 0 and changes nothing; nothing on envelope failure |
| `Api.Notify` | chord/api.go:122-132 | after a successful envelope check the predecessor is always the sender, and a poke is requested; on failure nothing changes |
| `Api.ReadOnlyHandlers` | chord/api.go:39-112 | FindSuccessor, ClosestPrecedingNode, Predecessor and Successor never change the peer's state |
| `Peers.NewPeer` | chord/peer.go:141-148 | a new peer has empty slots, no predecessor and the given identity |
| `Peers.Listen` | chord/peer.go:153-156 | the predecessor becomes absent; successor 0 becomes the peer's own contact, or keeps the old contact when it already holds self's id; `lastDirtyTime` moves iff it did not; the other slots are untouched |
| `Peers.ListenAfterNewPeer` | chord/peer.go:141-156 | a new peer that starts listening is exactly its own successor, with no predecessor and a fresh dirty time |
| `Peers.FindSuccessor` | chord/peer.go:61-86 | makes no call and answers successor 0 iff id lies `Between(self, successor 0)`; otherwise one ClosestPrecedingNode call to successor 0; on its failure, or when it names no node, that error (none in the latter case), no answer and no retry; when it names a node, one FindSuccessor call to that node, whose reply and error are returned |
| `Peers.FindSuccessorShortCircuits` | chord/peer.go:68-71 | any id at or below successor 0 in value is answered locally with successor 0 |
| `Peers.FindSuccessorForwardsOnlyAbove` | chord/peer.go:68-82 | a lookup is forwarded only for ids above successor 0, and never when successor 0 is self |
| `Peers.ScanFingers` | chord/peer.go:92-100 | the downward scan returns the highest slot whose finger lies `Between(self, id)`, every slot above it being present and not qualifying, and nothing iff every slot is passed; it needs only the slots it reaches to be present |
| `Peers.ScanFingersMatchesHighest` | chord/peer.go:92-100 | on a full table the scan agrees with the reference search `NodeIds.HighestBetween` over the fingers' ids |
| `Peers.ClosestPrecedingNode` | chord/peer.go:88-101 | returns the highest finger lying `Between(self, id)`, every slot above it being present and not qualifying; no contact iff every finger is present and none qualifies; only the slots the scan reaches need be present |
| `Peers.ClosestPrecedingNodeTopFinger` | chord/peer.go:92-96 | when the top finger is present and qualifies, it is the answer whatever the lower slots hold, nil ones included |
| `Peers.Predecessor` | chord/peer.go:103-113 | the reply decodes to the stored predecessor; it is the empty contact when there is none |
| `Peers.Successor` | chord/peer.go:115-125 | the reply decodes to successor slot 0; it is the empty contact when the slot is empty |
| `Peers.Notify` | chord/peer.go:127-139 | every Notify makes the sender the predecessor and pokes the maintenance tasks; the sender must carry an id |
| `Peers.Connect` | chord/peer.go:192-207 | if the ping fails, state unchanged and its error returned; otherwise successor 0 becomes the looked-up contact, even if the lookup errored, or keeps the old contact when the ids are equal; that error is returned, and `lastDirtyTime` moves iff slot 0's id changed |
| `Peers.ResponsibleFor` | chord/peer.go:217-219 | holds iff id lies `Between(predecessor, self)`: the full ring when they are equal, every id up to self, and ids from the predecessor on when self is below it |
| `Peers.ResponsibleForArc` | chord/peer.go:217-219 | a peer is responsible for its own id and for every id in the arc (predecessor, self] |

## Left out

- `tickingFunction`, `StartTickingFunction` and `Peer.Poke` (chord/util.go, chord/peer.go:221-224): goroutines, channels and timers. A poke is only counted.
- `cubic` (chord/util.go): floating-point cosine interpolation of the maintenance interval.
- `TimeSinceChange` (chord/network.go:213-215): reads the wall clock.
- The gRPC server and ticker setup in `Listen` (chord/peer.go:158-189): I/O and scheduling.
- `Call`, `NewRpcHeader` and the remote stubs `Ping`, `FindSuccessor`, `ClosestPrecedingNode`, `Predecessor`, `Successor` and `Notify` (chord/network.go:27-121): transport. They are replaced by the `Remote` oracle.
- The oracle is a pure function. Two identical calls within one step get the same answer, and `Notify`'s effect on the remote peer is only recorded in the call trace.
- `HandleRPC`: envelope validation that is not part of this model. Its outcome enters the `Api` handlers as a parameter.
- The `Ping` handlers (chord/api.go:20-27, chord/peer.go:52-59): they only return the peer's own contact or the envelope error.
- `NewNodeIDFromHash`, `NewNodeIDFromString`, `NewRandomNodeID`, `NewNodeID`, `String` and `NodeID.ToAPI`: hashing, hex decoding and randomness. Handlers take already-built ids.
- chord/service.go, chord/grpc_*.go and chord/web/*: field copies and gRPC clients. The entry points cmd/chord/main.go, main.go and main/main.go: flag parsing. Logging calls are no-ops.
- Locking: the source has none, and the model is sequential.
- Network.SetSlot: chord/network.go calls value-typed `SetSuccessor`/`SetFinger` setters that are not part of this model. They are assumed to follow the value-slot `SetFinger` of finger_table.go.
- Peers.FindSuccessor: the reply of the second call, FindSuccessor, is taken to be a contact; a nil one would panic at `ToAPI` (chord/peer.go:81), and the model does not represent panics. A ClosestPrecedingNode answer of no contact without an error is modelled: `Peers.ClosestPrecedingNode` itself gives it when no finger qualifies (chord/peer.go:100), and the client decodes it as nil (chord/grpc_client.go:23-25). chord/peer.go:80 then passes that nil to the network's FindSuccessor stub, which is not part of this model, so the model ends the lookup there with no answer and no error. chord/peer.go:81 always applies `ToAPI` to that stub's result, so the Go handler never returns "no answer and no error": this outcome stands in for the stub's unknown behaviour and is not the source's.
- Peers.ClosestPrecedingNode: a nil slot that the scan reaches would panic, so its requires excludes exactly those tables. Tables whose nil slots lie below the first qualifying finger are accepted.
- Peers.Connect: the lookup reply is never nil. A nil reply would make `SetSuccessor` panic.
- Api.FindSuccessor: the peer-side `FindSuccessor(id)` with the `(ContactInfo, error)` signature that chord/api.go calls is not part of this model. Its outcome is a parameter.
- Network.Refresh: does not state which Ping calls precede the rebuild. It only states that the rebuild starts from the first live slot.
- `lastDirtyTime` is an integer. The Go zero time is 0.

=== FILE: api.dfy ===
/** The net/rpc handlers of chord/api.go, over the value-slot state of
    chord/network.go. Each handler first runs HandleRPC, which validates the
    request envelope; that check is outside this model and enters as
    `envelope`, None for success or the error it returned. */
module Api {
  import opened Base
  import opened NodeIds
  import opened Contacts
  import opened Network

  /** A handler's outcome: the peer's new state, the response's Info field
      (None when the handler leaves it unset), the returned error, and
      whether it poked the maintenance tasks. */
  datatype Handled = Handled(state: ChordNetwork, info: Option<ContactInfo>, err: Option<Error>, poked: bool)

  /** What every handler does when HandleRPC fails: nothing but return the error. */
  predicate Rejected(s: ChordNetwork, envelope: Option<Error>, r: Handled)
  {
    envelope.Some? ==> r == Handled(s, None, envelope, false)
  }

  /** The ids of the finger slots, in slot order. */
  function FingerIds(fingers: seq<ContactInfo>): (ids: seq<NodeID>)
    ensures |ids| == |fingers|
    ensures forall j :: 0 <= j < |fingers| ==> ids[j] == fingers[j].id
  {
    seq(|fingers|, j requires 0 <= j < |fingers| => fingers[j].id)
  }

  /** FindSuccessor (lines 39-48): the peer's own lookup, whose outcome
      enters as `lookup`, goes into Info and its error is returned. */
  function FindSuccessor(s: ChordNetwork, envelope: Option<Error>, lookup: Reply<ContactInfo>): (r: Handled)
    requires Valid(s)
    ensures Rejected(s, envelope, r)
    ensures envelope.None? ==> r == Handled(s, Some(lookup.value), lookup.err, false)
  {
    if envelope.Some? then Handled(s, None, envelope, false)
    else Handled(s, Some(lookup.value), lookup.err, false)
  }

  /** ClosestPrecedingNode (lines 60-76): the highest finger lying
      Between(self, id), or the peer itself when none does. */
  function ClosestPrecedingNode(s: ChordNetwork, envelope: Option<Error>, id: NodeID): (r: Handled)
    requires Valid(s)
    ensures Rejected(s, envelope, r)
    ensures envelope.None? ==> r.state == s && r.err.None? && !r.poked && r.info.Some?
    ensures envelope.None? ==> r.info.value == s.localInfo || r.info.value in s.fingers
    ensures envelope.None? ==>
      ((exists k :: 0 <= k < FingerCount && r.info.value == s.fingers[k]
                    && Between(s.fingers[k].id, s.localInfo.id, id)
                    && (forall j :: k < j < FingerCount ==> !Between(s.fingers[j].id, s.localInfo.id, id)))
       || ((forall j :: 0 <= j < FingerCount ==> !Between(s.fingers[j].id, s.localInfo.id, id))
           && r.info.value == s.localInfo))
  {
    if envelope.Some? then Handled(s, None, envelope, false)
    else
      var hit := HighestBetween(FingerIds(s.fingers), s.localInfo.id, id, FingerCount);
      if hit.Some? then Handled(s, Some(s.fingers[hit.value]), None, false)
      else Handled(s, Some(s.localInfo), None, false)
  }

  /** Predecessor (lines 87-94): the stored predecessor, possibly absent. */
  function Predecessor(s: ChordNetwork, envelope: Option<Error>): (r: Handled)
    requires Valid(s)
    ensures Rejected(s, envelope, r)
    ensures envelope.None? ==> r == Handled(s, s.predecessor, None, false)
  {
    if envelope.Some? then Handled(s, None, envelope, false) else Handled(s, s.predecessor, None, false)
  }

  /** Successor (lines 105-112): successor slot 0. */
  function Successor(s: ChordNetwork, envelope: Option<Error>): (r: Handled)
    requires Valid(s)
    ensures Rejected(s, envelope, r)
    ensures envelope.None? ==> r == Handled(s, Some(s.successors[0]), None, false)
  {
    if envelope.Some? then Handled(s, None, envelope, false) else Handled(s, Some(s.successors[0]), None, false)
  }

  /** Notify (lines 122-132): adopt the envelope's sender as predecessor if
      there is none or the sender lies Between(predecessor, sender), then
      poke. The second test always holds, so every accepted Notify replaces
      the predecessor. */
  function Notify(s: ChordNetwork, envelope: Option<Error>, sender: ContactInfo): (r: Handled)
    requires Valid(s)
    ensures Rejected(s, envelope, r)
    ensures envelope.None? ==> r == Handled(s.(predecessor := Some(sender)), None, None, true)
  {
    if envelope.Some? then Handled(s, None, envelope, false)
    else if s.predecessor.None? || Between(sender.id, s.predecessor.value.id, sender.id) then
      Handled(s.(predecessor := Some(sender)), None, None, true)
    else
      Handled(s, None, None, false)
  }

  /** Every handler but Notify leaves the peer's state as it found it. */
  lemma ReadOnlyHandlers(s: ChordNetwork, envelope: Option<Error>, lookup: Reply<ContactInfo>, id: NodeID)
    requires Valid(s)
    ensures FindSuccessor(s, envelope, lookup).state == s
    ensures ClosestPrecedingNode(s, envelope, id).state == s
    ensures Predecessor(s, envelope).state == s
    ensures Successor(s, envelope).state == s
  {
  }

  /** The ClosestPrecedingNode reply read through Between's value form: a
      returned finger that is not self has an id at most the target's, or the
      target wraps below self and the finger is at or above self, or the
      target equals self (Between's full circle, where any finger qualifies). */
  lemma ClosestPrecedingNodeValues(s: ChordNetwork, id: NodeID, k: nat)
    requires Valid(s) && k < FingerCount
    requires ClosestPrecedingNode(s, None, id).info == Some(s.fingers[k])
    requires s.fingers[k] != s.localInfo
    ensures
      || Value(s.localInfo.id.val) == Value(id.val)
      || Value(s.fingers[k].id.val) <= Value(id.val)
      || (Value(id.val) < Value(s.localInfo.id.val) && Value(s.fingers[k].id.val) >= Value(s.localInfo.id.val))
  {
    var hit := HighestBetween(FingerIds(s.fingers), s.localInfo.id, id, FingerCount);
    BetweenValues(s.fingers[hit.value].id, s.localInfo.id, id);
  }
}

=== FILE: base.dfy ===
/** Small shared datatypes: optional values, Go-style (value, error) replies,
    and the "did this write change anything" pair returned by slot setters. */
module Base {

  /** A possibly absent value; stands for a Go pointer that may be nil. */
  datatype Option<T> = None | Some(value: T)

  /** An error value, as returned by a failed remote call or RPC envelope check. */
  datatype Error = Error(reason: string)

  /** Go's `(value, err)` result: a call yields a value even when it also
      yields an error, and callers sometimes use that value anyway. */
  datatype Reply<T> = Reply(value: T, err: Option<Error>)

  /** The result of a slot setter: the new container and whether it wrote. */
  datatype Written<T> = Written(value: T, changed: bool)
}

=== FILE: contacts.dfy ===
/** Peer descriptors, the trace of outbound calls and the remote-call oracle
    that stands in for the RPC transport. */
module Contacts {
  import opened Base
  import opened NodeIds

  /** A reachable peer: network address, ring id and an opaque payload
      (chord/peer.go). */
  datatype ContactInfo = ContactInfo(address: string, id: NodeID, payload: seq<Byte>)

  /** The Go zero value of ContactInfo, which value-typed slots start with. */
  function ZeroContact(): ContactInfo
  {
    ContactInfo("", NewEmptyNodeID(), [])
  }

  /** The wire form of a contact (api.ContactInfo), whose id may be missing. */
  datatype WireContact = WireContact(address: string, id: Option<NodeID>, payload: seq<Byte>)

  /** The empty wire contact `&api.ContactInfo{}`: no address, no id. */
  function EmptyWire(): WireContact
  {
    WireContact("", None, [])
  }

  /** ContactInfo.ToAPI. */
  function ToApi(c: ContactInfo): WireContact
  {
    WireContact(c.address, Some(c.id), c.payload)
  }

  /** NewContactInfoFromAPI: nil when the wire contact carries no id. */
  function FromApi(w: WireContact): (r: Option<ContactInfo>)
    ensures r.None? <==> w.id.None?
  {
    if w.id.None? then None else Some(ContactInfo(w.address, w.id.value, w.payload))
  }

  /** Converting to the wire form and back is the identity, and the empty
      wire contact reads back as no contact. */
  lemma WireRoundTrip(c: ContactInfo)
    ensures FromApi(ToApi(c)) == Some(c)
    ensures FromApi(EmptyWire()) == None
  {
  }

  /** Whether a pointer slot already holds a contact whose id equals `id`:
      the only case in which the pointer-slot setters do not write. */
  predicate SlotHoldsId(slot: Option<ContactInfo>, id: NodeID)
  {
    slot.Some? && Equals(id, slot.value.id)
  }

  /** What a value-slot setter leaves in a slot holding `held` when asked to
      store `info`: the old contact, address and payload included, when the
      ids are equal, and `info` otherwise. */
  function Settled(held: ContactInfo, info: ContactInfo): ContactInfo
  {
    if Equals(info.id, held.id) then held else info
  }

  /** The same for a pointer slot, which is also written when it is nil. */
  function SettledSlot(slot: Option<ContactInfo>, info: ContactInfo): Option<ContactInfo>
  {
    if SlotHoldsId(slot, info.id) then slot else Some(info)
  }

  /** One outbound call, as recorded in a step's trace. */
  datatype Call =
    | PingCall(address: string)
    | FindSuccessorCall(to: ContactInfo, target: NodeID)
    | ClosestPrecedingNodeCall(to: ContactInfo, target: NodeID)
    | PredecessorCall(to: ContactInfo)
    | SuccessorCall(to: ContactInfo)
    | NotifyCall(to: ContactInfo)

  /** A value together with the outbound calls made to produce it. */
  datatype Traced<T> = Traced(value: T, calls: seq<Call>)

  /** What the rest of the ring answers, one function per remote method
      whose reply is used. Notify has none: its reply is ignored, so a Notify
      is only recorded in the trace as a NotifyCall.
      A reply carries a value even when it carries an error, as Go's stubs do.
      A ClosestPrecedingNode reply may be no contact: the gRPC handler of
      chord/peer.go answers the empty contact when no finger qualifies, and
      the client decodes it as nil (chord/grpc_client.go:23-25). */
  datatype Remote = Remote(
    ping: string -> Reply<ContactInfo>,
    findSuccessor: (ContactInfo, NodeID) -> Reply<ContactInfo>,
    closestPrecedingNode: (ContactInfo, NodeID) -> Reply<Option<ContactInfo>>,
    predecessor: ContactInfo -> Reply<Option<ContactInfo>>,
    successor: ContactInfo -> Reply<ContactInfo>)
}

=== FILE: finger_table.dfy ===
/** The pointer-slot finger table (chord/finger_table.go): ten slots, each
    empty (nil) or holding a contact, plus the round-robin cursor `next`. */
module FingerTables {
  import opened Base
  import opened NodeIds
  import opened Contacts

  const FingerCount: nat := 10

  datatype FingerTable = FingerTable(fingers: seq<Option<ContactInfo>>, next: int)

  predicate Valid(t: FingerTable)
  {
    |t.fingers| == FingerCount
  }

  /** A table of empty slots with the cursor at 0 (the Go zero value). */
  function EmptyTable(): (t: FingerTable)
    ensures Valid(t)
  {
    FingerTable(seq(FingerCount, _ => None), 0)
  }

  /** GetFinger: a plain read of slot `index`, possibly nil. */
  function GetFinger(t: FingerTable, index: int): Option<ContactInfo>
    requires Valid(t) && 0 <= index < FingerCount
  {
    t.fingers[index]
  }

  /** SetFinger: writes `info` into slot `index` unless that slot already holds
      a contact with an equal id, and reports whether it wrote. */
  function SetFinger(t: FingerTable, index: int, info: ContactInfo): (r: Written<FingerTable>)
    requires Valid(t) && 0 <= index < FingerCount
    ensures Valid(r.value) && r.value.next == t.next
    ensures r.changed <==>
      (t.fingers[index].None? || Value(t.fingers[index].value.id.val) != Value(info.id.val))
    ensures r.changed ==> r.value.fingers[index] == Some(info)
    ensures !r.changed ==> r.value == t
    ensures forall j :: 0 <= j < FingerCount && j != index ==> r.value.fingers[j] == t.fingers[j]
  {
    if !SlotHoldsId(t.fingers[index], info.id) then
      Written(t.(fingers := t.fingers[index := Some(info)]), true)
    else
      Written(t, false)
  }

  /** After SetFinger the slot holds a contact whose id equals the one given,
      and setting the same contact again reports no change and writes nothing. */
  lemma SetFingerTwice(t: FingerTable, index: int, info: ContactInfo)
    requires Valid(t) && 0 <= index < FingerCount
    ensures SlotHoldsId(GetFinger(SetFinger(t, index, info).value, index), info.id)
    ensures !SetFinger(SetFinger(t, index, info).value, index, info).changed
    ensures SetFinger(SetFinger(t, index, info).value, index, info).value == SetFinger(t, index, info).value
  {
  }

  /** Change detection looks at the id only: a contact with an equal id but a
      different address or payload is not written. */
  lemma SetFingerIgnoresAddress(t: FingerTable, index: int, info: ContactInfo)
    requires Valid(t) && 0 <= index < FingerCount
    requires t.fingers[index].Some? && Equals(t.fingers[index].value.id, info.id)
    ensures SetFinger(t, index, info) == Written(t, false)
    ensures info != t.fingers[index].value ==> GetFinger(SetFinger(t, index, info).value, index) != Some(info)
  {
  }
}

=== FILE: legacy_finger_table.dfy ===
/** The older value-slot finger table (finger_table.go at the repository
    root). Its ContactInfo has no payload, and an empty slot is the zero
    contact, whose id has no bytes and so has value 0. */
module LegacyFingerTables {
  import opened Base
  import opened NodeIds

  const FingerCount: nat := 10

  datatype Contact = Contact(address: string, id: NodeID)

  datatype FingerTable = FingerTable(fingers: seq<Contact>, next: int)

  predicate Valid(t: FingerTable)
  {
    |t.fingers| == FingerCount
  }

  /** The zero contact that fills a fresh slot. */
  function ZeroContact(): Contact
  {
    Contact("", NewEmptyNodeID())
  }

  /** The Go zero value of the table. */
  function EmptyTable(): (t: FingerTable)
    ensures Valid(t)
  {
    FingerTable(seq(FingerCount, _ => ZeroContact()), 0)
  }

  /** GetFinger: a plain read of slot `index`, by value. */
  function GetFinger(t: FingerTable, index: int): Contact
    requires Valid(t) && 0 <= index < FingerCount
  {
    t.fingers[index]
  }

  /** SetFinger: writes `info` unless the stored contact's id equals it. */
  function SetFinger(t: FingerTable, index: int, info: Contact): (r: Written<FingerTable>)
    requires Valid(t) && 0 <= index < FingerCount
    ensures Valid(r.value) && r.value.next == t.next
    ensures r.changed <==> Value(info.id.val) != Value(t.fingers[index].id.val)
    ensures r.changed ==> r.value.fingers[index] == info
    ensures !r.changed ==> r.value == t
    ensures forall j :: 0 <= j < FingerCount && j != index ==> r.value.fingers[j] == t.fingers[j]
  {
    if !Equals(info.id, t.fingers[index].id) then
      Written(t.(fingers := t.fingers[index := info]), true)
    else
      Written(t, false)
  }

  /** On a fresh slot an id of value 0, with or without bytes, reads as
      already stored: nothing is written and no change is reported. */
  lemma FreshSlotIgnoresZeroId(index: int, info: Contact)
    requires 0 <= index < FingerCount
    requires IsZero(info.id)
    ensures SetFinger(EmptyTable(), index, info) == Written(EmptyTable(), false)
  {
  }

  /** An identical second call reports no change, and GetFinger then returns
      a contact whose id equals the one set. */
  lemma SetFingerTwice(t: FingerTable, index: int, info: Contact)
    requires Valid(t) && 0 <= index < FingerCount
    ensures Equals(GetFinger(SetFinger(t, index, info).value, index).id, info.id)
    ensures SetFinger(SetFinger(t, index, info).value, index, info) == Written(SetFinger(t, index, info).value, false)
  {
  }
}

=== FILE: network.dfy ===
/** The ring maintenance steps of chord/network.go. This variant keeps its
    fingers and successors as VALUE slots: an unused slot holds the zero
    ContactInfo, whose id IsZero. Remote calls go to the `remote` oracle and
    every step records the calls it makes; `now` stands for time.Now(). */
module Network {
  import opened Base
  import opened NodeIds
  import opened Contacts
  import FingerTables
  import SuccessorLists

  const FingerCount: nat := FingerTables.FingerCount
  const SuccessorListSize: nat := SuccessorLists.SuccessorListSize

  /** chordNetwork: finger table with its cursor, successor list, optional
      predecessor, own identity and the time of the last topology change. */
  datatype ChordNetwork = ChordNetwork(
    fingers: seq<ContactInfo>,
    next: int,
    successors: seq<ContactInfo>,
    predecessor: Option<ContactInfo>,
    localInfo: ContactInfo,
    lastDirtyTime: int)

  predicate Valid(n: ChordNetwork)
  {
    && |n.fingers| == FingerCount
    && 0 <= n.next < FingerCount
    && |n.successors| == SuccessorListSize
  }

  /** The outcome of one maintenance step: new state, returned error, calls made. */
  datatype Step = Step(state: ChordNetwork, err: Option<Error>, calls: seq<Call>)

  /** NewChordNetwork: zero-valued slots, cursor 0, no predecessor. */
  function NewChordNetwork(info: ContactInfo): (n: ChordNetwork)
    ensures Valid(n) && n.next == 0 && n.predecessor.None? && n.localInfo == info
    ensures forall j :: 0 <= j < FingerCount ==> IsZero(n.fingers[j].id)
    ensures forall j :: 0 <= j < SuccessorListSize ==> IsZero(n.successors[j].id)
  {
    ChordNetwork(seq(FingerCount, _ => ZeroContact()), 0,
                 seq(SuccessorListSize, _ => ZeroContact()), None, info, 0)
  }

  /** The value-slot setter used for both fingers and successors: write
      unless the stored id equals the new one. */
  function SetSlot(slots: seq<ContactInfo>, i: int, info: ContactInfo): (r: Written<seq<ContactInfo>>)
    requires 0 <= i < |slots|
    ensures |r.value| == |slots|
    ensures r.changed <==> Value(info.id.val) != Value(slots[i].id.val)
    ensures r.changed ==> r.value == slots[i := info]
    ensures !r.changed ==> r.value == slots
  {
    if !Equals(info.id, slots[i].id) then Written(slots[i := info], true) else Written(slots, false)
  }

  // ---------------------------------------------------------------------
  // Stabilize

  /** Successor slot j is worth rebuilding from: its id is not zero and it
      answers a ping. */
  predicate Live(s: ChordNetwork, j: int, remote: Remote)
    requires Valid(s) && 0 <= j < SuccessorListSize
  {
    !IsZero(s.successors[j].id) && remote.ping(s.successors[j].address).err.None?
  }

  /** The first live successor slot at or after k, or SuccessorListSize if none. */
  function FirstLive(s: ChordNetwork, k: nat, remote: Remote): (r: nat)
    requires Valid(s) && k <= SuccessorListSize
    ensures k <= r <= SuccessorListSize
    ensures forall j :: k <= j < r ==> !Live(s, j, remote)
    ensures r < SuccessorListSize ==> Live(s, r, remote)
    decreases SuccessorListSize - k
  {
    if k == SuccessorListSize || Live(s, k, remote) then k else FirstLive(s, k + 1, remote)
  }

  datatype Rebuilt = Rebuilt(slots: seq<ContactInfo>, dirty: bool, calls: seq<Call>)

  /** Slot j of `after` is what `SetSuccessor(j, curr)` leaves in slot j of
      `before`, where curr is the Successor reply of `after`'s slot j - 1. */
  predicate Chained(after: seq<ContactInfo>, before: seq<ContactInfo>, remote: Remote, j: int)
    requires 1 <= j < |after| && j < |before|
  {
    after[j] == Settled(before[j], remote.successor(after[j - 1]).value)
  }

  /** Lines 143-147: slot i becomes the Successor of slot i - 1, for i from
      the given one to the end; call errors are ignored. */
  function RebuildFrom(slots: seq<ContactInfo>, i: nat, remote: Remote): (r: Rebuilt)
    requires |slots| == SuccessorListSize && 1 <= i <= SuccessorListSize
    ensures |r.slots| == SuccessorListSize
    ensures forall j :: 0 <= j < i ==> r.slots[j] == slots[j]
    ensures forall j :: i <= j < SuccessorListSize ==> Chained(r.slots, slots, remote, j)
    ensures r.dirty <==> exists j :: i <= j < SuccessorListSize && !Equals(r.slots[j].id, slots[j].id)
    ensures |r.calls| == SuccessorListSize - i
    ensures forall k :: 0 <= k < |r.calls| ==> r.calls[k] == SuccessorCall(r.slots[i + k - 1])
    decreases SuccessorListSize - i
  {
    if i == SuccessorListSize then Rebuilt(slots, false, [])
    else
      var prev := slots[i - 1];
      var curr := remote.successor(prev);
      var w := SetSlot(slots, i, curr.value);
      var rest := RebuildFrom(w.value, i + 1, remote);
      assert Chained(rest.slots, slots, remote, i) by {
        assert rest.slots[i] == w.value[i] == Settled(slots[i], curr.value);
        assert rest.slots[i - 1] == prev;
      }
      assert forall j :: i < j < SuccessorListSize ==>
        Chained(rest.slots, w.value, remote, j) ==> Chained(rest.slots, slots, remote, j);
      Rebuilt(rest.slots, w.changed || rest.dirty, [SuccessorCall(prev)] + rest.calls)
  }

  /** `after` is `before` with its successor list rebuilt from `head`: slot 0
      is set to head, each later slot to the contact its predecessor slot
      names as successor, each write keeping the old contact when the ids are
      equal; the dirty time moved iff some slot's id changed. */
  predicate RebuiltFrom(before: ChordNetwork, after: ChordNetwork, head: ContactInfo, remote: Remote, now: int)
    requires Valid(before) && Valid(after)
  {
    && after.successors[0] == Settled(before.successors[0], head)
    && (forall i :: 1 <= i < SuccessorListSize ==> Chained(after.successors, before.successors, remote, i))
    && after.lastDirtyTime ==
         (if exists i :: 0 <= i < SuccessorListSize && !Equals(after.successors[i].id, before.successors[i].id)
          then now else before.lastDirtyTime)
  }

  /** Lines 139-151: slot 0 takes the pinged contact, the remaining slots are
      rebuilt from it, and the dirty time moves iff some SetSuccessor wrote. */
  function RebuildList(s: ChordNetwork, head: ContactInfo, remote: Remote, now: int): (r: Traced<ChordNetwork>)
    requires Valid(s)
    ensures Valid(r.value)
    ensures r.value.(successors := s.successors, lastDirtyTime := s.lastDirtyTime) == s
    ensures RebuiltFrom(s, r.value, head, remote, now)
    ensures |r.calls| == SuccessorListSize - 1
  {
    var w := SetSlot(s.successors, 0, head);
    var rb := RebuildFrom(w.value, 1, remote);
    var dirty := w.changed || rb.dirty;
    var after := s.(successors := rb.slots, lastDirtyTime := if dirty then now else s.lastDirtyTime);
    assert RebuiltFrom(s, after, head, remote, now) by {
      assert after.successors == rb.slots;
      assert rb.slots[0] == w.value[0];
      assert forall i :: 1 <= i < SuccessorListSize ==> w.value[i] == s.successors[i];
      assert forall i :: 1 <= i < SuccessorListSize ==>
        Chained(rb.slots, w.value, remote, i) ==> Chained(rb.slots, s.successors, remote, i);
      assert dirty <==> exists i :: 0 <= i < SuccessorListSize && !Equals(rb.slots[i].id, s.successors[i].id) by {
        if w.changed {
          assert !Equals(rb.slots[0].id, s.successors[0].id);
        }
      }
    }
    Traced(after, rb.calls)
  }

  /** Lines 127-153: scan the successor slots from k on, skipping zero ids and
      slots whose ping fails, and rebuild the list from the first one that
      answers; stop there. */
  function Refresh(s: ChordNetwork, k: nat, remote: Remote, now: int): (r: Traced<ChordNetwork>)
    requires Valid(s) && k <= SuccessorListSize
    ensures Valid(r.value)
    ensures r.value.(successors := s.successors, lastDirtyTime := s.lastDirtyTime) == s
    ensures FirstLive(s, k, remote) == SuccessorListSize ==> r.value == s
    ensures FirstLive(s, k, remote) < SuccessorListSize ==>
      RebuiltFrom(s, r.value, remote.ping(s.successors[FirstLive(s, k, remote)].address).value, remote, now)
    decreases SuccessorListSize - k
  {
    if k == SuccessorListSize then Traced(s, [])
    else
      var succ := s.successors[k];
      if IsZero(succ.id) then
        assert !Live(s, k, remote);
        Refresh(s, k + 1, remote, now)
      else
        var pong := remote.ping(succ.address);
        if pong.err.Some? then
          assert !Live(s, k, remote);
          var rest := Refresh(s, k + 1, remote, now);
          Traced(rest.value, [PingCall(succ.address)] + rest.calls)
        else
          assert FirstLive(s, k, remote) == k;
          var rebuilt := RebuildList(s, pong.value, remote, now);
          Traced(rebuilt.value, [PingCall(succ.address)] + rebuilt.calls)
  }

  /** Whether Stabilize adopts the predecessor x reported by its successor
      `head` (lines 162-167): x is present, is not us, and lies Between(us, head). */
  predicate Adopts(s: ChordNetwork, x: Option<ContactInfo>, head: ContactInfo)
  {
    x.Some? && !Equals(x.value.id, s.localInfo.id) && Between(x.value.id, s.localInfo.id, head.id)
  }

  /** Stabilize (lines 123-174): refresh the successor list, ask successor 0
      for its predecessor x, return early if x is us, adopt x as successor 0
      if it lies Between(us, successor 0), then notify the successor read
      before the adoption. The Predecessor call's error is returned and the
      Notify call's error is dropped. */
  function Stabilize(s: ChordNetwork, remote: Remote, now: int): (r: Step)
    requires Valid(s)
    ensures Valid(r.state)
    ensures r.state.fingers == s.fingers && r.state.next == s.next
    ensures r.state.predecessor == s.predecessor && r.state.localInfo == s.localInfo
    ensures
      var refreshed := Refresh(s, 0, remote, now);
      var head := refreshed.value.successors[0];
      var x := remote.predecessor(head);
      && r.err == x.err
      && |r.calls| > |refreshed.calls|
      && r.calls[..|refreshed.calls|] == refreshed.calls
      && r.calls[|refreshed.calls|] == PredecessorCall(head)
      && (x.value.Some? && Equals(x.value.value.id, s.localInfo.id) ==>
            |r.calls| == |refreshed.calls| + 1 && r.state == refreshed.value)
      && (!(x.value.Some? && Equals(x.value.value.id, s.localInfo.id)) ==>
            |r.calls| == |refreshed.calls| + 2 && r.calls[|r.calls| - 1] == NotifyCall(head))
      && (Adopts(s, x.value, head) ==>
            r.state == (if Equals(x.value.value.id, head.id) then refreshed.value
                        else refreshed.value.(successors := refreshed.value.successors[0 := x.value.value],
                                              lastDirtyTime := now)))
      && (!Adopts(s, x.value, head) ==> r.state == refreshed.value)
      && (r.state.successors[1..] == refreshed.value.successors[1..])
  {
    var refreshed := Refresh(s, 0, remote, now);
    var t := refreshed.value;
    var successor := t.successors[0];
    var x := remote.predecessor(successor);
    var calls := refreshed.calls + [PredecessorCall(successor)];
    if x.value.Some? && Equals(x.value.value.id, s.localInfo.id) then
      Step(t, x.err, calls)
    else
      var adopted :=
        if x.value.Some? && Between(x.value.value.id, s.localInfo.id, successor.id) then
          var w := SetSlot(t.successors, 0, x.value.value);
          if w.changed then t.(successors := w.value, lastDirtyTime := now) else t
        else t;
      Step(adopted, x.err, calls + [NotifyCall(successor)])
  }

  /** A consequence of Between as written: when we are below our successor,
      Stabilize adopts a reported predecessor that lies BELOW us, a node the
      interval (us, successor) excludes. */
  lemma StabilizeAdoptsNodeBehindLocal(s: ChordNetwork, remote: Remote, now: int)
    requires Valid(s)
    requires
      var head := Refresh(s, 0, remote, now).value.successors[0];
      var x := remote.predecessor(head).value;
      x.Some? && Less(s.localInfo.id, head.id) && Less(x.value.id, s.localInfo.id)
    ensures
      var head := Refresh(s, 0, remote, now).value.successors[0];
      var x := remote.predecessor(head).value;
      Equals(Stabilize(s, remote, now).state.successors[0].id, x.value.id)
  {
    var head := Refresh(s, 0, remote, now).value.successors[0];
    var x := remote.predecessor(head).value;
    BetweenUnwrapped(x.value.id, s.localInfo.id, head.id);
    assert Adopts(s, x, head);
  }

  /** If no successor slot is live, the refresh changes nothing and the
      Predecessor query goes to the unchanged successor 0. */
  lemma StabilizeWithoutLiveSuccessor(s: ChordNetwork, remote: Remote, now: int)
    requires Valid(s)
    requires forall j :: 0 <= j < SuccessorListSize ==> !Live(s, j, remote)
    ensures Stabilize(s, remote, now).calls[|Refresh(s, 0, remote, now).calls|] == PredecessorCall(s.successors[0])
    ensures Stabilize(s, remote, now).state.successors[1..] == s.successors[1..]
    ensures Stabilize(s, remote, now).err == remote.predecessor(s.successors[0]).err
  {
    assert FirstLive(s, 0, remote) == SuccessorListSize;
  }

  // ---------------------------------------------------------------------
  // FixFingers

  /** The cursor after one FixFingers call (lines 177-180). */
  function AdvanceCursor(next: int): (r: int)
    requires 0 <= next < FingerCount
    ensures 0 <= r < FingerCount && r == (next + 1) % FingerCount
  {
    if next + 1 >= FingerCount then 0 else next + 1
  }

  /** The finger lookup target (lines 184-191): local + (2 << next), reduced
      modulo 2^(20*8), in minimal big-endian bytes. */
  function FingerTarget(local: NodeID, next: nat): (r: NodeID)
    ensures |r.val| <= IdLength
  {
    var shifted := 2 * Pow(2, next);
    var modulus := Pow(256, IdLength);
    var v := (Value(local.val) + shifted) % modulus;
    ToBytesLength(v, IdLength);
    NodeID(ToBytes(v))
  }

  /** The target is local + 2^(next+1) on a ring of 2^160 points, whatever the
      local id's own length: `2 << next` is 2^(next+1), not the 2^(next-1) of
      the comment above the computation. */
  lemma FingerTargetValue(local: NodeID, next: nat)
    ensures Value(FingerTarget(local, next).val) == (Value(local.val) + Pow(2, next + 1)) % Pow(2, 8 * IdLength)
  {
    BitsOfBytes(IdLength);
  }

  /** FixFingers (lines 176-200): advance the cursor, look up the successor of
      the cursor's target through our own FindSuccessor endpoint, store the
      reply in that slot even if the lookup failed, mark the topology dirty iff
      the slot's id changed, and return the lookup's error. */
  function FixFingers(s: ChordNetwork, remote: Remote, now: int): (r: Step)
    requires Valid(s)
    ensures Valid(r.state)
    ensures r.state.next == (s.next + 1) % FingerCount
    ensures r.state.successors == s.successors && r.state.predecessor == s.predecessor
    ensures r.state.localInfo == s.localInfo
    ensures forall j :: 0 <= j < FingerCount && j != r.state.next ==> r.state.fingers[j] == s.fingers[j]
    ensures |r.calls| == 1 && r.calls[0].FindSuccessorCall? && r.calls[0].to == s.localInfo
    ensures
      var found := remote.findSuccessor(s.localInfo, r.calls[0].target);
      && r.err == found.err
      && r.state.fingers[r.state.next] == Settled(s.fingers[r.state.next], found.value)
      && r.state.lastDirtyTime ==
           (if Equals(s.fingers[r.state.next].id, found.value.id) then s.lastDirtyTime else now)
  {
    var next := AdvanceCursor(s.next);
    var fingerId := FingerTarget(s.localInfo.id, next);
    var successor := remote.findSuccessor(s.localInfo, fingerId);
    var w := SetSlot(s.fingers, next, successor.value);
    Step(s.(fingers := w.value, next := next, lastDirtyTime := if w.changed then now else s.lastDirtyTime),
         successor.err, [FindSuccessorCall(s.localInfo, fingerId)])
  }

  /** The lookup FixFingers issues targets local + 2^(next+1) mod 2^160, where
      next is the advanced cursor. */
  lemma FixFingersTarget(s: ChordNetwork, remote: Remote, now: int)
    requires Valid(s)
    ensures
      var r := FixFingers(s, remote, now);
      Value(r.calls[0].target.val) == (Value(s.localInfo.id.val) + Pow(2, r.state.next + 1)) % Pow(2, 8 * IdLength)
  {
    FingerTargetValue(s.localInfo.id, FixFingers(s, remote, now).state.next);
  }

  /** The state after k FixFingers calls with the same oracle. The cursor
      moves round-robin: after k calls it has advanced k slots modulo 10, so
      from a fresh network the first call fills slot 1 and slot 0 comes
      tenth. */
  function FixFingersTimes(s: ChordNetwork, remote: Remote, now: int, k: nat): (r: ChordNetwork)
    requires Valid(s)
    ensures Valid(r)
    ensures r.next == (s.next + k) % FingerCount
    decreases k
  {
    if k == 0 then s
    else
      var t := FixFingers(s, remote, now).state;
      var r := FixFingersTimes(t, remote, now, k - 1);
      assert r.next == (t.next + (k - 1)) % FingerCount;
      CursorWraps(s.next, k);
      r
  }

  lemma CursorWraps(a: int, k: nat)
    requires 0 <= a < FingerCount && k > 0
    ensures ((a + 1) % FingerCount + (k - 1)) % FingerCount == (a + k) % FingerCount
  {
    if a + 1 == FingerCount {
      assert a + k == (k - 1) + FingerCount;
    }
  }

  // ---------------------------------------------------------------------
  // CheckPredecessor

  /** CheckPredecessor (lines 202-211): ping the predecessor if there is one;
      if the ping fails, forget it and mark the topology dirty. */
  function CheckPredecessor(s: ChordNetwork, remote: Remote, now: int): (r: Step)
    requires Valid(s)
    ensures Valid(r.state)
    ensures s.predecessor.None? ==> r == Step(s, None, [])
    ensures s.predecessor.Some? ==>
      && r.calls == [PingCall(s.predecessor.value.address)]
      && r.err == remote.ping(s.predecessor.value.address).err
    ensures r.err.None? ==> r.state == s
    ensures r.err.Some? ==> r.state == s.(predecessor := None, lastDirtyTime := now)
    ensures r.state.predecessor.Some? ==> remote.ping(r.state.predecessor.value.address).err.None?
  {
    if s.predecessor.Some? then
      var pong := remote.ping(s.predecessor.value.address);
      if pong.err.Some? then
        Step(s.(predecessor := None, lastDirtyTime := now), pong.err, [PingCall(s.predecessor.value.address)])
      else
        Step(s, None, [PingCall(s.predecessor.value.address)])
    else
      Step(s, None, [])
  }

  /** A second check with the same oracle changes nothing. */
  lemma CheckPredecessorIdempotent(s: ChordNetwork, remote: Remote, now: int)
    requires Valid(s)
    ensures
      var once := CheckPredecessor(s, remote, now).state;
      CheckPredecessor(once, remote, now).state == once
  {
  }
}

=== FILE: node_id.dfy ===
/** Ring identifiers (chord/node_id.go). A NodeID is a byte string read as a
    big-endian unsigned integer; every comparison is a comparison of that
    integer, so the byte length and leading zero bytes do not matter. */
module NodeIds {
  import opened Base

  /** Conventional identifier length in bytes. */
  const IdLength: nat := 20

  type Byte = b: int | 0 <= b < 256

  datatype NodeID = NodeID(val: seq<Byte>)

  /** The big-endian unsigned value of a byte string (big.Int.SetBytes). */
  function Value(bytes: seq<Byte>): nat
  {
    if |bytes| == 0 then 0 else Value(bytes[..|bytes| - 1]) * 256 + bytes[|bytes| - 1]
  }

  function Pow(base: nat, k: nat): (r: nat)
    ensures base > 0 ==> r > 0
  {
    if k == 0 then 1 else base * Pow(base, k - 1)
  }

  /** The minimal big-endian encoding of n (big.Int.Bytes): empty for 0 and
      never starting with a zero byte. */
  function ToBytes(n: nat): (r: seq<Byte>)
    ensures Value(r) == n
    ensures |r| > 0 ==> r[0] != 0
    decreases n
  {
    if n == 0 then [] else ToBytes(n / 256) + [n % 256]
  }

  lemma {:induction false} PowAdd(base: nat, i: nat, j: nat)
    ensures Pow(base, i + j) == Pow(base, i) * Pow(base, j)
    decreases i
  {
    if i > 0 {
      PowAdd(base, i - 1, j);
      var a, b := Pow(base, i - 1), Pow(base, j);
      assert Pow(base, i + j) == base * (a * b) by {
        assert i + j - 1 == (i - 1) + j;
      }
      assert base * (a * b) == (base * a) * b;
    }
  }

  /** 2^(8k) == 256^k: a k-byte string spans 8k bits. */
  lemma {:induction false} BitsOfBytes(k: nat)
    ensures Pow(2, 8 * k) == Pow(256, k)
    decreases k
  {
    if k > 0 {
      PowAdd(2, 8, 8 * (k - 1));
      assert 8 * k == 8 + 8 * (k - 1);
      assert Pow(2, 8) == 256;
      BitsOfBytes(k - 1);
    }
  }

  /** A value below 256^k has a minimal encoding of at most k bytes. */
  lemma {:induction false} ToBytesLength(n: nat, k: nat)
    requires n < Pow(256, k)
    ensures |ToBytes(n)| <= k
    decreases k
  {
    if n > 0 {
      assert k > 0;
      assert n / 256 < Pow(256, k - 1);
      ToBytesLength(n / 256, k - 1);
    }
  }

  function Zeros(k: nat): (r: seq<Byte>)
  {
    if k == 0 then [] else [0] + Zeros(k - 1)
  }

  // ---------------------------------------------------------------------
  // Comparisons

  /** The zero value of NodeID: no bytes at all. */
  function NewEmptyNodeID(): NodeID
  {
    NodeID([])
  }

  predicate Equals(a: NodeID, b: NodeID)
  {
    Value(a.val) == Value(b.val)
  }

  predicate Less(a: NodeID, b: NodeID)
  {
    Value(a.val) < Value(b.val)
  }

  /** Empty bytes are zero outright; otherwise the value must fit an int64 and be 0. */
  predicate IsZero(id: NodeID)
  {
    |id.val| == 0 || Value(id.val) == 0
  }

  /** Prepending one zero byte does not change the value. */
  lemma {:induction false} PrependZero(s: seq<Byte>)
    ensures Value([0] + s) == Value(s)
    decreases |s|
  {
    if |s| > 0 {
      var t := [0] + s;
      assert t[..|t| - 1] == [0] + s[..|s| - 1];
      PrependZero(s[..|s| - 1]);
    }
  }

  /** Ids that differ only by leading zero bytes are equal. */
  lemma {:induction false} EqualsIgnoresLeadingZeros(k: nat, s: seq<Byte>)
    ensures Equals(NodeID(Zeros(k) + s), NodeID(s))
    decreases k
  {
    if k > 0 {
      calc {
        Value(Zeros(k) + s);
        { assert Zeros(k) + s == [0] + (Zeros(k - 1) + s); }
        Value([0] + (Zeros(k - 1) + s));
        { PrependZero(Zeros(k - 1) + s); }
        Value(Zeros(k - 1) + s);
        { EqualsIgnoresLeadingZeros(k - 1, s); }
        Value(s);
      }
    } else {
      assert Zeros(k) + s == s;
    }
  }

  /** In particular the empty id equals any all-zero id. */
  lemma EmptyEqualsAllZero(k: nat)
    ensures Equals(NewEmptyNodeID(), NodeID(Zeros(k)))
  {
    EqualsIgnoresLeadingZeros(k, []);
    assert Zeros(k) + [] == Zeros(k);
  }

  lemma EqualsIsEquivalence(a: NodeID, b: NodeID, c: NodeID)
    ensures Equals(a, a)
    ensures Equals(a, b) ==> Equals(b, a)
    ensures Equals(a, b) && Equals(b, c) ==> Equals(a, c)
  {
  }

  /** Less is a strict total order up to Equals: exactly one of the three holds. */
  lemma LessTrichotomy(a: NodeID, b: NodeID)
    ensures Less(a, b) || Equals(a, b) || Less(b, a)
    ensures !(Less(a, b) && Equals(a, b))
    ensures !(Less(a, b) && Less(b, a))
    ensures !(Equals(a, b) && Less(b, a))
  {
  }

  lemma LessIsTransitive(a: NodeID, b: NodeID, c: NodeID)
    ensures Less(a, b) && Less(b, c) ==> Less(a, c)
    ensures !Less(a, a)
  {
  }

  /** IsZero holds exactly when the value is 0, i.e. when the id equals the empty id. */
  lemma IsZeroIffValueZero(id: NodeID)
    ensures IsZero(id) <==> Value(id.val) == 0
    ensures IsZero(id) <==> Equals(id, NewEmptyNodeID())
  {
  }

  // ---------------------------------------------------------------------
  // Bits, Xor and PrefixLen

  /** Bit i of n (big.Int.Bit). */
  predicate Bit(n: nat, i: nat)
  {
    if i == 0 then n % 2 == 1 else Bit(n / 2, i - 1)
  }

  /** Number of significant bits of n (big.Int.BitLen). */
  function BitLen(n: nat): nat
  {
    if n == 0 then 0 else 1 + BitLen(n / 2)
  }

  /** Bitwise exclusive or of two naturals. */
  function XorNat(a: nat, b: nat): nat
    decreases a + b
  {
    if a == 0 then b
    else if b == 0 then a
    else (if a % 2 == b % 2 then 0 else 1) + 2 * XorNat(a / 2, b / 2)
  }

  lemma {:induction false} ZeroHasNoBits(i: nat)
    ensures !Bit(0, i)
  {
    if i > 0 {
      ZeroHasNoBits(i - 1);
    }
  }

  /** Bit i of a xor b is set exactly when bit i is set in one operand but not both. */
  lemma {:induction false} XorNatBits(a: nat, b: nat, i: nat)
    ensures Bit(XorNat(a, b), i) <==> (Bit(a, i) != Bit(b, i))
    decreases a + b
  {
    if a == 0 {
      ZeroHasNoBits(i);
    } else if b == 0 {
      ZeroHasNoBits(i);
    } else if i > 0 {
      var r := XorNat(a, b);
      assert r / 2 == XorNat(a / 2, b / 2);
      XorNatBits(a / 2, b / 2, i - 1);
    }
  }

  /** Two naturals with the same bits are equal. */
  lemma {:induction false} SameBitsSameValue(m: nat, n: nat)
    requires forall i: nat :: Bit(m, i) == Bit(n, i)
    ensures m == n
    decreases m + n
  {
    if m != n {
      assert Bit(m, 0) == Bit(n, 0);
      forall i: nat
        ensures Bit(m / 2, i) == Bit(n / 2, i)
      {
        assert Bit(m, i + 1) == Bit(n, i + 1);
      }
      if m / 2 == m {
        assert m == 0;
        SameBitsSameValue(m, n / 2);
      } else {
        SameBitsSameValue(m / 2, n / 2);
      }
    }
  }

  /** NodeID.Xor: the minimal byte string of the xor of the operands' values. */
  function Xor(a: NodeID, b: NodeID): (r: NodeID)
    ensures forall i: nat :: Bit(Value(r.val), i) <==> (Bit(Value(a.val), i) != Bit(Value(b.val), i))
  {
    var x := XorNat(Value(a.val), Value(b.val));
    forall i: nat
      ensures Bit(x, i) <==> (Bit(Value(a.val), i) != Bit(Value(b.val), i))
    {
      XorNatBits(Value(a.val), Value(b.val), i);
    }
    NodeID(ToBytes(x))
  }

  lemma XorCommutes(a: NodeID, b: NodeID)
    ensures Xor(a, b) == Xor(b, a)
  {
    var p := Value(Xor(a, b).val);
    var q := Value(Xor(b, a).val);
    SameBitsSameValue(p, q);
    assert XorNat(Value(a.val), Value(b.val)) == XorNat(Value(b.val), Value(a.val));
  }

  lemma XorSelfIsZero(x: NodeID)
    ensures IsZero(Xor(x, x))
  {
    var p := Value(Xor(x, x).val);
    forall i: nat
      ensures Bit(p, i) == Bit(0, i)
    {
      ZeroHasNoBits(i);
    }
    SameBitsSameValue(p, 0);
  }

  lemma {:induction false} TopBitSet(n: nat)
    requires n > 0
    ensures Bit(n, BitLen(n) - 1)
    decreases n
  {
    if n / 2 > 0 {
      TopBitSet(n / 2);
    }
  }

  /** n shifted right by k bits. */
  function Shr(n: nat, k: nat): nat
  {
    if k == 0 then n else Shr(n / 2, k - 1)
  }

  /** If the k lowest bits of n are clear then n is 2^k times n >> k, whose
      lowest bit is bit k of n: with k the PrefixLen of a non-zero value, n is
      an odd multiple of 2^k. */
  lemma {:induction false} LowBitsClear(n: nat, k: nat)
    requires forall j: nat :: j < k ==> !Bit(n, j)
    ensures n == Pow(2, k) * Shr(n, k)
    ensures Bit(n, k) <==> Shr(n, k) % 2 == 1
    decreases k
  {
    if k > 0 {
      assert !Bit(n, 0);
      forall j: nat | j < k - 1
        ensures !Bit(n / 2, j)
      {
        assert !Bit(n, j + 1);
      }
      LowBitsClear(n / 2, k - 1);
      var p, q := Pow(2, k - 1), Shr(n, k);
      assert n / 2 == p * q;
      assert n == 2 * (p * q);
      assert n == (2 * p) * q;
    }
  }

  /** NodeID.PrefixLen: the index of the lowest set bit (the number of
      trailing zero bits), or BitLen, which is 0, for the value 0. */
  method PrefixLen(id: NodeID) returns (r: nat)
    ensures r <= BitLen(Value(id.val))
    ensures forall j: nat :: j < r ==> !Bit(Value(id.val), j)
    ensures Value(id.val) > 0 ==> r < BitLen(Value(id.val)) && Bit(Value(id.val), r)
    ensures Value(id.val) == 0 ==> r == 0
    ensures Value(id.val) == Pow(2, r) * Shr(Value(id.val), r)
    ensures Value(id.val) > 0 ==> Shr(Value(id.val), r) % 2 == 1
  {
    var tmp := Value(id.val);
    var i := 0;
    while i < BitLen(tmp)
      invariant i <= BitLen(tmp)
      invariant forall j: nat :: j < i ==> !Bit(tmp, j)
    {
      if Bit(tmp, i) {
        LowBitsClear(tmp, i);
        return i;
      }
      i := i + 1;
    }
    if tmp > 0 {
      TopBitSet(tmp);
    }
    LowBitsClear(tmp, BitLen(tmp));
    return BitLen(tmp);
  }

  // ---------------------------------------------------------------------
  // Ring interval

  /** NodeID.Between exactly as written. Go's `&&` binds tighter than `||`,
      so the last disjunct reads `(b < a && node >= a) || node < b`. */
  predicate Between(node: NodeID, a: NodeID, b: NodeID)
  {
    || Equals(a, b)
    || Equals(node, b)
    || (Less(a, b) && !Less(node, a) && Less(node, b))
    || (Less(b, a) && !Less(node, a))
    || Less(node, b)
  }

  /** The highest index below `upTo` whose id lies Between(a, b): the scan
      ClosestPrecedingNode runs from the last finger down to the first. */
  function HighestBetween(ids: seq<NodeID>, a: NodeID, b: NodeID, upTo: nat): (r: Option<nat>)
    requires upTo <= |ids|
    ensures r.Some? ==> r.value < upTo && Between(ids[r.value], a, b)
    ensures r.Some? ==> forall j :: r.value < j < upTo ==> !Between(ids[j], a, b)
    ensures r.None? <==> forall j :: 0 <= j < upTo ==> !Between(ids[j], a, b)
    decreases upTo
  {
    if upTo == 0 then None
    else if Between(ids[upTo - 1], a, b) then Some(upTo - 1)
    else HighestBetween(ids, a, b, upTo - 1)
  }

  /** The interval the doc comment promises: (a, b] on the ring, the whole
      ring when a equals b. */
  predicate InArc(node: NodeID, a: NodeID, b: NodeID)
  {
    var n, x, y := Value(node.val), Value(a.val), Value(b.val);
    || x == y
    || (x < y && x < n <= y)
    || (y < x && (n > x || n <= y))
  }

  /** Between in terms of values: full circle, anything up to b, or at/after a when wrapped. */
  lemma BetweenValues(node: NodeID, a: NodeID, b: NodeID)
    ensures Between(node, a, b) <==>
      (|| Value(a.val) == Value(b.val)
       || Value(node.val) <= Value(b.val)
       || (Value(b.val) < Value(a.val) && Value(node.val) >= Value(a.val)))
  {
  }

  lemma BetweenFullCircle(node: NodeID, a: NodeID)
    ensures Between(node, a, a)
  {
  }

  lemma BetweenRightClosed(x: NodeID, a: NodeID)
    ensures Between(x, a, x)
  {
  }

  lemma BetweenWrapped(node: NodeID, a: NodeID, b: NodeID)
    requires Less(b, a)
    ensures Between(node, a, b) <==> Value(node.val) >= Value(a.val) || Value(node.val) <= Value(b.val)
  {
  }

  /** Without wrap-around the predicate is just `node <= b`: a itself and
      everything below a are accepted. */
  lemma BetweenUnwrapped(node: NodeID, a: NodeID, b: NodeID)
    requires Less(a, b)
    ensures Between(node, a, b) <==> Value(node.val) <= Value(b.val)
  {
  }

  /** The code accepts exactly the documented arc plus a itself and, when
      a < b, every node below a. */
  lemma BetweenVersusArc(node: NodeID, a: NodeID, b: NodeID)
    ensures Between(node, a, b) <==>
      InArc(node, a, b) || Equals(node, a) || (Less(a, b) && Less(node, a))
    ensures InArc(node, a, b) ==> Between(node, a, b)
  {
  }

  /** A concrete witness of the gap: 1 lies in the code's (1, 5] but not in the arc (1, 5]. */
  lemma BetweenAcceptsLeftEnd()
    ensures Between(NodeID([1]), NodeID([1]), NodeID([5]))
    ensures !InArc(NodeID([1]), NodeID([1]), NodeID([5]))
  {
    assert Value([1]) == 1 by { assert [1][..0] == []; }
    assert Value([5]) == 5 by { assert [5][..0] == []; }
  }
}

=== FILE: peer.dfy ===
/** The inbound handlers and join logic of chord/peer.go. This variant keeps
    pointer slots: a finger or successor slot is absent (nil) or holds a
    contact. Outbound calls go to the `remote` oracle, and `now` stands for
    time.Now(). A poke of the maintenance tasks is counted in `pokes`. */
module Peers {
  import opened Base
  import opened NodeIds
  import opened Contacts
  import opened FingerTables
  import opened SuccessorLists

  /** A peer's identity and the ring state it owns. */
  datatype PeerState = PeerState(
    info: ContactInfo,
    fingerTable: FingerTable,
    successors: SuccessorList,
    predecessor: Option<ContactInfo>,
    lastDirtyTime: int,
    pokes: nat)

  predicate Valid(p: PeerState)
  {
    FingerTables.Valid(p.fingerTable) && SuccessorLists.Valid(p.successors)
  }

  /** A handler or join step's outcome: new state, returned error, calls made. */
  datatype PeerStep = PeerStep(state: PeerState, err: Option<Error>, calls: seq<Call>)

  /** NewPeer: empty slots, no predecessor, nothing poked yet. */
  function NewPeer(info: ContactInfo): (p: PeerState)
    ensures Valid(p) && p.info == info && p.predecessor.None? && p.pokes == 0
    ensures forall j :: 0 <= j < FingerCount ==> p.fingerTable.fingers[j].None?
    ensures forall j :: 0 <= j < SuccessorListSize ==> p.successors[j].None?
  {
    PeerState(info, EmptyTable(), EmptyList(), None, 0, 0)
  }

  /** The state part of Listen (lines 153-156): forget the predecessor and
      make ourselves successor 0; the topology is dirty iff slot 0 did not
      already hold our id. */
  function Listen(p: PeerState, now: int): (r: PeerState)
    requires Valid(p)
    ensures Valid(r) && r.predecessor.None?
    ensures SlotHoldsId(r.successors[0], p.info.id)
    ensures r.successors[0] == SettledSlot(p.successors[0], p.info)
    ensures forall j :: 1 <= j < SuccessorListSize ==> r.successors[j] == p.successors[j]
    ensures r.lastDirtyTime == (if SlotHoldsId(p.successors[0], p.info.id) then p.lastDirtyTime else now)
    ensures r.info == p.info && r.fingerTable == p.fingerTable && r.pokes == p.pokes
  {
    var w := SetSuccessor(p.successors, 0, p.info);
    p.(predecessor := None, successors := w.value, lastDirtyTime := if w.changed then now else p.lastDirtyTime)
  }

  /** A freshly created peer that starts listening is its own successor,
      has no predecessor, and records the change. */
  lemma ListenAfterNewPeer(info: ContactInfo, now: int)
    ensures Listen(NewPeer(info), now).successors[0] == Some(info)
    ensures Listen(NewPeer(info), now).lastDirtyTime == now
    ensures Listen(NewPeer(info), now).predecessor.None?
  {
  }

  /** FindSuccessor (lines 61-86). If id lies Between(self, successor 0) the
      successor is the answer and no call is made. Otherwise one
      ClosestPrecedingNode call goes to successor 0; if it fails its error is
      returned with no answer and no retry, else the node it names is asked
      for id's successor and that reply and error are returned. When the call
      succeeds but names no node, line 80 hands nil to a network stub that is
      not part of this model; the lookup ends there with no answer and no
      error. */
  datatype Lookup = Lookup(info: Option<ContactInfo>, err: Option<Error>, calls: seq<Call>)

  function FindSuccessor(p: PeerState, id: NodeID, remote: Remote): (r: Lookup)
    requires Valid(p) && p.successors[0].Some?
    ensures |r.calls| <= 2
    ensures
      var succ := p.successors[0].value;
      var n0 := remote.closestPrecedingNode(succ, id);
      && (r.calls == [] <==> Between(id, p.info.id, succ.id))
      && (r.calls == [] ==> r.info == Some(succ) && r.err.None?)
      && (r.calls != [] ==> r.calls[0] == ClosestPrecedingNodeCall(succ, id))
      && (|r.calls| == 1 <==> r.calls != [] && (n0.err.Some? || n0.value.None?))
      && (|r.calls| == 1 ==> r.info.None? && r.err == n0.err)
      && (|r.calls| == 2 ==>
            && r.calls[1] == FindSuccessorCall(n0.value.value, id)
            && r.info == Some(remote.findSuccessor(n0.value.value, id).value)
            && r.err == remote.findSuccessor(n0.value.value, id).err)
  {
    var successor := p.successors[0].value;
    if Between(id, p.info.id, successor.id) then
      Lookup(Some(successor), None, [])
    else
      var n0 := remote.closestPrecedingNode(successor, id);
      if n0.err.None? && n0.value.Some? then
        var found := remote.findSuccessor(n0.value.value, id);
        Lookup(Some(found.value), found.err,
               [ClosestPrecedingNodeCall(successor, id), FindSuccessorCall(n0.value.value, id)])
      else
        Lookup(None, n0.err, [ClosestPrecedingNodeCall(successor, id)])
  }

  /** Because Between(self, successor) accepts everything up to the
      successor, any id numerically at or below successor 0, including ids
      below our own, is answered locally with successor 0. */
  lemma FindSuccessorShortCircuits(p: PeerState, id: NodeID, remote: Remote)
    requires Valid(p) && p.successors[0].Some?
    requires Value(id.val) <= Value(p.successors[0].value.id.val)
    ensures FindSuccessor(p, id, remote) == Lookup(p.successors[0], None, [])
  {
  }

  /** A lookup is forwarded only when it targets an id above successor 0 and
      successor 0 is not us (by value); if we are our own successor every
      lookup is answered locally. */
  lemma FindSuccessorForwardsOnlyAbove(p: PeerState, id: NodeID, remote: Remote)
    requires Valid(p) && p.successors[0].Some?
    ensures FindSuccessor(p, id, remote).calls != [] ==>
      && Value(id.val) > Value(p.successors[0].value.id.val)
      && Value(p.info.id.val) != Value(p.successors[0].value.id.val)
    ensures Equals(p.successors[0].value.id, p.info.id) ==> FindSuccessor(p, id, remote).calls == []
  {
    BetweenValues(id, p.info.id, p.successors[0].value.id);
  }

  /** The downward scan of lines 92-97 has passed every slot from `upTo - 1`
      down to `j + 1`: each of them is present and does not lie
      Between(self, id). */
  predicate Passed(fingers: seq<Option<ContactInfo>>, self: NodeID, id: NodeID, j: int, upTo: nat)
    requires upTo <= |fingers|
  {
    forall m :: 0 <= m < upTo && j < m ==> fingers[m].Some? && !Between(fingers[m].value.id, self, id)
  }

  /** The scan from slot `upTo - 1` downwards dereferences no nil slot:
      every slot it reaches is present, and it stops at the first finger
      lying Between(self, id). */
  predicate ScanSafe(fingers: seq<Option<ContactInfo>>, self: NodeID, id: NodeID, upTo: nat)
    requires upTo <= |fingers|
    decreases upTo
  {
    || upTo == 0
    || (&& fingers[upTo - 1].Some?
        && (Between(fingers[upTo - 1].value.id, self, id) || ScanSafe(fingers, self, id, upTo - 1)))
  }

  /** The downward finger scan: the index of the highest slot below `upTo`
      whose finger lies Between(self, id), every slot above it being present
      and not qualifying; None when the whole table is passed. */
  function ScanFingers(fingers: seq<Option<ContactInfo>>, self: NodeID, id: NodeID, upTo: nat): (r: Option<nat>)
    requires upTo <= |fingers| && ScanSafe(fingers, self, id, upTo)
    ensures r.Some? ==> r.value < upTo && fingers[r.value].Some? && Between(fingers[r.value].value.id, self, id)
    ensures r.Some? ==> Passed(fingers, self, id, r.value, upTo)
    ensures r.None? <==> Passed(fingers, self, id, -1, upTo)
    decreases upTo
  {
    if upTo == 0 then None
    else
      assert Passed(fingers, self, id, upTo - 1, upTo);
      var f := fingers[upTo - 1].value;
      if Between(f.id, self, id) then Some(upTo - 1)
      else
        var r := ScanFingers(fingers, self, id, upTo - 1);
        assert r.Some? ==> Passed(fingers, self, id, r.value, upTo) by {
          if r.Some? {
            forall m | 0 <= m < upTo && r.value < m
              ensures fingers[m].Some? && !Between(fingers[m].value.id, self, id)
            {
              if m < upTo - 1 {
                assert Passed(fingers, self, id, r.value, upTo - 1);
              }
            }
          }
        }
        assert r.None? <==> Passed(fingers, self, id, -1, upTo) by {
          if r.None? {
            forall m | 0 <= m < upTo
              ensures fingers[m].Some? && !Between(fingers[m].value.id, self, id)
            {
              if m < upTo - 1 {
                assert Passed(fingers, self, id, -1, upTo - 1);
              }
            }
          }
        }
        r
  }

  /** When every finger is present the scan is the reference search
      HighestBetween over the fingers' ids. */
  lemma {:induction false} ScanFingersMatchesHighest(fingers: seq<Option<ContactInfo>>, self: NodeID, id: NodeID, upTo: nat)
    requires upTo <= |fingers|
    requires forall j :: 0 <= j < |fingers| ==> fingers[j].Some?
    ensures ScanSafe(fingers, self, id, upTo)
    ensures ScanFingers(fingers, self, id, upTo) ==
      HighestBetween(seq(|fingers|, j requires 0 <= j < |fingers| => fingers[j].value.id), self, id, upTo)
    decreases upTo
  {
    if upTo > 0 {
      ScanFingersMatchesHighest(fingers, self, id, upTo - 1);
    }
  }

  /** ClosestPrecedingNode (lines 88-101): the highest finger lying
      Between(self, id), or no contact at all when none does. The scan
      dereferences every slot it reaches, so those must be present. */
  function ClosestPrecedingNode(p: PeerState, id: NodeID): (r: Option<ContactInfo>)
    requires Valid(p)
    requires ScanSafe(p.fingerTable.fingers, p.info.id, id, FingerCount)
    ensures r.Some? ==>
      exists k :: (&& 0 <= k < FingerCount && p.fingerTable.fingers[k] == r
                   && Between(r.value.id, p.info.id, id)
                   && Passed(p.fingerTable.fingers, p.info.id, id, k, FingerCount))
    ensures r.None? <==>
      forall j :: 0 <= j < FingerCount ==>
        p.fingerTable.fingers[j].Some? && !Between(p.fingerTable.fingers[j].value.id, p.info.id, id)
  {
    var hit := ScanFingers(p.fingerTable.fingers, p.info.id, id, FingerCount);
    if hit.Some? then p.fingerTable.fingers[hit.value] else None
  }

  /** A partial table is answered as long as the scan stops before a nil
      slot: when the top finger is present and lies Between(self, id), it is
      the answer whatever the lower slots hold, nil ones included. */
  lemma ClosestPrecedingNodeTopFinger(p: PeerState, id: NodeID)
    requires Valid(p)
    requires p.fingerTable.fingers[FingerCount - 1].Some?
    requires Between(p.fingerTable.fingers[FingerCount - 1].value.id, p.info.id, id)
    ensures ScanSafe(p.fingerTable.fingers, p.info.id, id, FingerCount)
    ensures ClosestPrecedingNode(p, id) == p.fingerTable.fingers[FingerCount - 1]
  {
  }

  /** Predecessor (lines 103-113): the stored predecessor in wire form, or the
      empty contact when there is none; reading it back gives the slot. */
  function Predecessor(p: PeerState): (r: WireContact)
    ensures FromApi(r) == p.predecessor
    ensures p.predecessor.None? ==> r == EmptyWire()
  {
    if p.predecessor.Some? then ToApi(p.predecessor.value) else EmptyWire()
  }

  /** Successor (lines 115-125): successor 0 in wire form, or the empty contact. */
  function Successor(p: PeerState): (r: WireContact)
    requires Valid(p)
    ensures FromApi(r) == p.successors[0]
    ensures p.successors[0].None? ==> r == EmptyWire()
  {
    if p.successors[0].Some? then ToApi(p.successors[0].value) else EmptyWire()
  }

  /** Notify (lines 127-139): the wire sender is converted back to a contact,
      which is dereferenced, so it must carry an id. The sender is adopted if
      there is no predecessor or it lies Between(predecessor, sender); the
      latter always holds, so every Notify replaces the predecessor and pokes
      the maintenance tasks. */
  function Notify(p: PeerState, sender: WireContact): (r: PeerState)
    requires sender.id.Some?
    ensures r == p.(predecessor := FromApi(sender), pokes := p.pokes + 1)
  {
    var s := FromApi(sender).value;
    if p.predecessor.None? || Between(s.id, p.predecessor.value.id, s.id) then
      p.(predecessor := Some(s), pokes := p.pokes + 1)
    else
      p
  }

  /** Connect (lines 192-207): ping the bootstrap address; on failure return
      its error and change nothing. Otherwise ask the pinged peer for the
      successor of our id and install the reply as successor 0, even when
      that lookup returned an error, whose error is then returned. */
  function Connect(p: PeerState, address: string, remote: Remote, now: int): (r: PeerStep)
    requires Valid(p)
    ensures Valid(r.state)
    ensures
      var pong := remote.ping(address);
      var found := remote.findSuccessor(pong.value, p.info.id);
      && (pong.err.Some? ==> r == PeerStep(p, pong.err, [PingCall(address)]))
      && (pong.err.None? ==>
            && r.calls == [PingCall(address), FindSuccessorCall(pong.value, p.info.id)]
            && r.err == found.err
            && SlotHoldsId(r.state.successors[0], found.value.id)
            && r.state.successors[0] == SettledSlot(p.successors[0], found.value)
            && r.state.lastDirtyTime ==
                 (if SlotHoldsId(p.successors[0], found.value.id) then p.lastDirtyTime else now))
    ensures forall j :: 1 <= j < SuccessorListSize ==> r.state.successors[j] == p.successors[j]
    ensures r.state.(successors := p.successors, lastDirtyTime := p.lastDirtyTime) == p
  {
    var pong := remote.ping(address);
    if pong.err.None? then
      var found := remote.findSuccessor(pong.value, p.info.id);
      var w := SetSuccessor(p.successors, 0, found.value);
      PeerStep(p.(successors := w.value, lastDirtyTime := if w.changed then now else p.lastDirtyTime),
               found.err, [PingCall(address), FindSuccessorCall(pong.value, p.info.id)])
    else
      PeerStep(p, pong.err, [PingCall(address)])
  }

  /** ResponsibleFor (lines 217-219): whether id lies Between(predecessor,
      self); the predecessor is dereferenced, so it must be present. In
      values: the full ring when predecessor and self are equal, every id up
      to self, and, when self is below the predecessor, every id from the
      predecessor on. */
  function ResponsibleFor(p: PeerState, id: NodeID): (r: bool)
    requires p.predecessor.Some?
    ensures r <==>
      || Value(p.predecessor.value.id.val) == Value(p.info.id.val)
      || Value(id.val) <= Value(p.info.id.val)
      || (Value(p.info.id.val) < Value(p.predecessor.value.id.val)
          && Value(id.val) >= Value(p.predecessor.value.id.val))
  {
    BetweenValues(id, p.predecessor.value.id, p.info.id);
    Between(id, p.predecessor.value.id, p.info.id)
  }

  /** A peer is always responsible for its own id, and for every id the
      documented arc (predecessor, self] contains. */
  lemma ResponsibleForArc(p: PeerState, id: NodeID)
    requires p.predecessor.Some?
    ensures ResponsibleFor(p, p.info.id)
    ensures InArc(id, p.predecessor.value.id, p.info.id) ==> ResponsibleFor(p, id)
  {
    BetweenVersusArc(id, p.predecessor.value.id, p.info.id);
  }
}

=== FILE: successor_list.dfy ===
/** The pointer-slot successor list (chord/successor_list.go): five slots,
    slot 0 being the immediate successor. */
module SuccessorLists {
  import opened Base
  import opened NodeIds
  import opened Contacts

  const SuccessorListSize: nat := 5

  type SuccessorList = seq<Option<ContactInfo>>

  predicate Valid(list: SuccessorList)
  {
    |list| == SuccessorListSize
  }

  /** The Go zero value: every slot nil. */
  function EmptyList(): (list: SuccessorList)
    ensures Valid(list)
  {
    seq(SuccessorListSize, _ => None)
  }

  /** GetSuccessor: a plain read of slot `i`, possibly nil. */
  function GetSuccessor(list: SuccessorList, i: int): Option<ContactInfo>
    requires Valid(list) && 0 <= i < SuccessorListSize
  {
    list[i]
  }

  /** SetSuccessor: writes `info` into slot i unless that slot already holds a
      contact with an equal id, and reports whether it wrote. The nil check
      before the comparison only logs, so `info` must be present. */
  function SetSuccessor(list: SuccessorList, i: int, info: ContactInfo): (r: Written<SuccessorList>)
    requires Valid(list) && 0 <= i < SuccessorListSize
    ensures Valid(r.value)
    ensures r.changed <==> (list[i].None? || Value(list[i].value.id.val) != Value(info.id.val))
    ensures r.changed ==> r.value[i] == Some(info)
    ensures !r.changed ==> r.value == list
    ensures forall j :: 0 <= j < SuccessorListSize && j != i ==> r.value[j] == list[j]
  {
    if !SlotHoldsId(list[i], info.id) then Written(list[i := Some(info)], true) else Written(list, false)
  }

  /** After any SetSuccessor slot i holds an id equal to `info.id`, and an
      identical second call reports no change and writes nothing. */
  lemma SetSuccessorTwice(list: SuccessorList, i: int, info: ContactInfo)
    requires Valid(list) && 0 <= i < SuccessorListSize
    ensures SlotHoldsId(GetSuccessor(SetSuccessor(list, i, info).value, i), info.id)
    ensures !SetSuccessor(SetSuccessor(list, i, info).value, i, info).changed
    ensures SetSuccessor(SetSuccessor(list, i, info).value, i, info).value == SetSuccessor(list, i, info).value
  {
  }
}
